=== FILE: README.md ===
# MegaDL link and key front end, in Dafny

This project models the part of the `MegaDL` downloader that runs before any
network traffic: turning a Mega share link into a file id and a node key, and
turning the node key into the AES-128 key and counter IV of the AES-CTR
decryption context. It also models the object state that `build_context`,
`get_id`, `get_url`, `fetch_url` and `download` read and write.

Modules, in dependency order:

- `Results` (`results.dfy`): the exceptions of the C++ class as `Failure`
  values, plus `Option` and `Result`.
- `CppString` (`cppstring.dfy`): the `std::string` operations the parser uses.
  These are `find`, `find_last_of`, `substr`, `std::replace` and `append(n, c)`.
  Positions are 64-bit `size_t` values, and `npos` and unsigned wrap-around are
  written out explicitly.
- `Base64` (`base64.dfy`): a decoder and an encoder for the standard base 64
  alphabet of section 4 of RFC 4648. The decoder stands in for
  `mbedtls_base64_decode`.
- `UrlParser` (`url.dfy`): `MegaDL::decode_url`, step by step, plus lemmas
  that say what it returns for every shape of link. The shapes are:
  - the current layout `…/ID#KEY`;
  - the legacy layout `…/#!ID!KEY`;
  - a missing `/`;
  - a missing delimiter;
  - a delimiter before the id.
- `NodeKey` (`nodekey.dfy`):
  - `MegaDL::decode_key`;
  - the key and IV unpacking of `MegaDL::build_context`. The source does this
    through `uint64_t` views of byte buffers. A 64-bit value is modelled by its
    eight byte lanes, and the host byte order is a parameter.
- `MegaDL` (`megadl.dfy`): the object state `{id, url, context}` and the
  operations on it. End-to-end lemmas connect a node key to a link and back.

An operation that throws in C++ returns `Err(f)` here. It also returns the
object state as the exception leaves it. For example, `build_context` stores
the id before it decodes the key, so a link with a bad key still leaves its id
behind (`MegaDL.ShortKeyLeavesId`).

Three behaviours of the code a reader may not expect:

- **Key padding.** The code always appends 1 to 4 `=`, never 0. A key text
  that is already a multiple of 4 long gets four.
- **Accepted key lengths.** The code accepts only raw key slices of 40 to 43
  characters. A longer key is refused, not truncated. Of those lengths, only 43
  can decode to a 32-byte node key (`MegaDL.OnlyFullKeysDecode`).
- **State after a failure.** The code has a partial-update state, described in
  the previous paragraph.

## Model

| member | source | states |
|---|---|---|
| CppString.Wrap | lib/MegaDL.cpp:65-78 | A position sum or difference on `size_t` lands in [0, 2^64) and differs from the exact value by at most one multiple of 2^64 |
| CppString.WrapIsMod | lib/MegaDL.cpp:65-78 | That result is the exact value reduced modulo 2^64, the C++ rule for unsigned integers |
| CppString.Find | lib/MegaDL.cpp:62 | `find` gives `npos` exactly when the pattern occurs nowhere, and otherwise the first position where it occurs |
| CppString.FindLastOf | lib/MegaDL.cpp:65-68 | `find_last_of` gives `npos` exactly when the character is absent, and otherwise the position of its last occurrence |
| CppString.FindLastOfAt | lib/MegaDL.cpp:65-68 | Whenever `p` holds the last occurrence of `c`, `find_last_of(c)` returns `p` |
| CppString.Substr | lib/MegaDL.cpp:71-78 | `substr(pos, n)` throws `out_of_range` exactly when `pos` is past the end, and otherwise yields the text from `pos` with `n` clamped to what is left |
| CppString.SubstrTail | lib/MegaDL.cpp:78 | A count that reaches the end (as `len - end_pos` does) yields the whole tail |
| CppString.Replace | lib/MegaDL.cpp:81-82 | `std::replace` keeps the length and swaps exactly the occurrences of one character |
| CppString.Repeat | lib/MegaDL.cpp:86-87 | `append(pad, '=')` adds exactly `pad` copies of `=` |
| Base64.Decode | lib/MegaDL.cpp:105-111 | Only text whose length is a multiple of 4 can decode at all; the full acceptance condition and the output length are stated by `Base64.DecodeSpec` |
| Base64.DecodeSpec | lib/MegaDL.cpp:105-111 | The decoder succeeds exactly on well-formed text (length a multiple of 4, alphabet characters, at most two trailing `=`), and the number of bytes is three per quantum minus the padding |
| Base64.Encode | lib/MegaDL.cpp:113-118 | Encoding n bytes gives (n+2)/3*4 characters, alphabet characters followed by the `=` padding; 32 bytes give 43 characters and one `=` |
| Base64.DecodeEncode | lib/MegaDL.cpp:105-111 | Decoding the encoding of any byte string gives that byte string back |
| Base64.JoinSplit | lib/MegaDL.cpp:105-111 | Splitting three bytes into four sextets and joining them again is the identity |
| UrlParser.IsOldLink | lib/MegaDL.cpp:62 | The link is in the legacy layout exactly when `#!` occurs in it |
| UrlParser.NormalizeKey | lib/MegaDL.cpp:80-82 | Each character is mapped to its standard-alphabet counterpart (`_` to `/`, `-` to `+`), the length is kept, and no `_` or `-` remains |
| UrlParser.NormalizeToUrlSafe | lib/MegaDL.cpp:80-82 | Normalising is the inverse of the URL-safe encoding of section 5 of RFC 4648 on text free of `_` and `-` |
| UrlParser.PadCount | lib/MegaDL.cpp:85-86 | `4 - key_len % 4` is between 1 and 4 and makes the length a multiple of 4 |
| UrlParser.PaddedKey | lib/MegaDL.cpp:80-87 | The key text is the normalised raw key followed by only `=`, and holds no `_` or `-` |
| UrlParser.PaddedKeyLength | lib/MegaDL.cpp:84-91 | The padded key is 44 characters long exactly when the raw key has 40 to 43 characters |
| UrlParser.CutKey | lib/MegaDL.cpp:76-91 | A key that passes the length check is 44 characters long and holds no `_` or `-`, paired with the id unchanged |
| UrlParser.DecodeUrl | lib/MegaDL.cpp:54-94 | Links shorter than 52 characters throw "Invalid URL."; an accepted link yields an 8-character id and a 44-character key with no `_` or `-` |
| UrlParser.IdStart | lib/MegaDL.cpp:64-65 | `init_pos`: with no `/` in the link, `npos + 1` wraps to 0, so the start is 0, or 2 in the legacy layout; otherwise the position one before the start (three before in the legacy layout) holds the last `/` |
| UrlParser.IdEnd | lib/MegaDL.cpp:67-68 | `end_pos` is `npos` exactly when the link lacks the delimiter of its layout (`!` for legacy, `#` otherwise), and otherwise the position of the last such delimiter |
| UrlParser.IdStartPosition | lib/MegaDL.cpp:64-65 | The id starts right after the last `/`, or two characters further on in the legacy layout, whatever those characters are; with no `/` at all, `npos + 1` wraps so the start is 0 or 2 |
| UrlParser.IdEndPosition | lib/MegaDL.cpp:67-68 | The id ends at the last `#`, or the last `!` in the legacy layout |
| UrlParser.CutKeyAfter | lib/MegaDL.cpp:76-91 | The key is everything after the delimiter, accepted exactly when it has 40 to 43 characters |
| UrlParser.CutKeyWrapped | lib/MegaDL.cpp:76-91 | When there is no delimiter, `end_pos + 1` wraps to 0, the whole link becomes the key, and it is refused as "Invalid URL key." |
| UrlParser.DecodeUrlSlices | lib/MegaDL.cpp:54-94 | For a link whose id start does not pass its last delimiter, the outcome is "Invalid URL ID." unless the id span is 8 long, then "Invalid URL key." unless the key has 40 to 43 characters, and otherwise the id span and the padded key |
| UrlParser.ReversedSliceTakesTail | lib/MegaDL.cpp:70-78 | When the last delimiter comes before the id start, the wrapped count makes the id the whole tail of the link, while the key is still cut after the delimiter |
| UrlParser.StartPastEndIsOutOfRange | lib/MegaDL.cpp:65-71 | A legacy link whose last `/` is one of its last two characters makes `substr` throw `out_of_range` |
| UrlParser.MissingDelimiterRejected | lib/MegaDL.cpp:67-91 | A link without the delimiter of its layout is always refused |
| UrlParser.NewLinkDecodes | lib/MegaDL.cpp:54-94 | `prefix + ID + "#" + KEY`, for a prefix that is empty or ends in `/`, holds no `#` and leaves the link within `max_size()`, and an 8-character URL-safe id, a 40- to 43-character URL-safe KEY and a link of at least 52 characters, yields that id and that key normalised and padded |
| UrlParser.LegacyLinkDecodes | lib/MegaDL.cpp:54-94 | `prefix + "#!" + ID + "!" + KEY`, for a prefix that is empty or ends in `/`, holds no `#` and leaves the link within `max_size()`, and an 8-character URL-safe id, a 40- to 43-character URL-safe KEY and a link of at least 52 characters, yields that id and that key normalised and padded |
| UrlParser.LayoutsAgree | lib/MegaDL.cpp:62-68 | For a prefix that is empty or ends in `/`, holds no `#` and leaves the link within `max_size()`, and an 8-character URL-safe id, a 40- to 43-character URL-safe key, and a current-layout link of at least 52 characters, the current and the legacy layout decode to the same result |
| NodeKey.StoreXor | lib/MegaDL.cpp:34-42 | Exclusive or of two `uint64_t` words read from memory and written back is the bytewise exclusive or, on either byte order |
| NodeKey.StoreLoad | lib/MegaDL.cpp:45-48 | Copying one `uint64_t` word from one buffer to another copies its eight bytes, on either byte order |
| NodeKey.UnpackNodeKey | lib/MegaDL.cpp:33-48 | The AES key is the exclusive or of the two 16-byte halves of the node key; the IV is bytes 16 to 23 of the node key followed by eight zero bytes |
| NodeKey.AesKeyBytewise | lib/MegaDL.cpp:33-42 | The two words `k0 ^ k2` and `k1 ^ k3` written back to memory are the bytewise exclusive or of the first and second 16-byte halves of the node key, on either byte order |
| NodeKey.IvBytewise | lib/MegaDL.cpp:44-48 | The IV buffer holds word `k2` written back to memory, that is node key bytes 16 to 23, followed by the eight zero bytes it was created with |
| NodeKey.EndianIndependent | lib/MegaDL.cpp:33-48 | The key and IV handed to the cipher are the same on little- and big-endian hosts |
| NodeKey.UnpackedBytes | lib/MegaDL.cpp:33-48 | The key and IV are 16 bytes each: key byte i is node byte i xor node byte i+16, IV bytes 0-7 are node bytes 16-23, and IV bytes 8-15 are zero |
| NodeKey.RecoverNodeKey | lib/MegaDL.cpp:34-48 | The first eight node key bytes are the first eight key bytes xor the IV |
| NodeKey.DecodeKey | lib/MegaDL.cpp:96-124 | The key text is accepted exactly when it is well-formed base 64 of exactly 32 bytes; every failure throws "Invalid node key." |
| NodeKey.DecodeKeyEncode | lib/MegaDL.cpp:113-121 | The encoding of any 32-byte node key is accepted and decodes to that node key |
| MegaDL.Initial | lib/MegaDL.cpp:13-16 | A default-constructed object has an empty id, an empty URL and an unkeyed cipher |
| MegaDL.BuildContext | lib/MegaDL.cpp:23-52 | A link that fails to parse throws its parse error and leaves the object unchanged. A parsed link stores its id even if the key then fails. The call succeeds exactly when the link parses and its key decodes to 32 bytes, and then leaves an 8-character id and keys the cipher with the key and IV unpacked from that node key. A parsed link whose key then fails throws "Invalid node key.". A failure leaves the cipher as it was. The download URL is never touched |
| MegaDL.Construct | lib/MegaDL.cpp:18-21 | The constructor succeeds exactly when `build_context` on a default object would, and otherwise throws that call's exception ("Invalid node key." whenever the link itself parses), so no object exists. A constructed object has an empty URL, the link's id, and the cipher keyed from the link's node key |
| MegaDL.GetId | lib/MegaDL.cpp:126-132 | `get_id` throws exactly when no id has been stored, and otherwise returns it |
| MegaDL.GetUrl | lib/MegaDL.cpp:178-184 | `get_url` throws exactly when no URL has been fetched, and otherwise returns it |
| MegaDL.FetchUrl | lib/MegaDL.cpp:134-176 | Without an id, `fetch_url` throws before any request and changes nothing. It succeeds exactly when the reply has both members, storing the URL and returning the size. The URL is stored before the size is read, so a reply with a URL and no size still stores the URL, while a reply without a URL leaves the stored URL as it was. With an id, every failure is a malformed reply. The id and the cipher are never touched |
| MegaDL.DownloadTarget | lib/MegaDL.cpp:186-189 | `download` needs the id first and the URL second; it writes to `path` followed by the id and reads from the fetched URL |
| MegaDL.ShareKeyPads | lib/MegaDL.cpp:80-91 | The 43-character URL-safe key text a link carries for a node key pads and normalises back to the standard encoding of that node key |
| MegaDL.NewLinkBuilds | lib/MegaDL.cpp:23-52 | A current-layout link made, for a prefix that is empty or ends in `/`, holds no `#` and leaves the link within `max_size()`, and an 8-character URL-safe id, from that id and the 43-character URL-safe text of any 32-byte node key, stores that id and keys the cipher with that node key's key and IV |
| MegaDL.LegacyLinkBuilds | lib/MegaDL.cpp:23-52 | A legacy-layout link made, under the same conditions, from an id and the URL-safe text of any 32-byte node key, stores that id and keys the cipher with that node key's key and IV |
| MegaDL.OnlyFullKeysDecode | lib/MegaDL.cpp:84-121 | Of the raw key lengths 40 to 43 that the link check accepts, only 43 can decode to 32 bytes: 40 or 41 leave three or four `=`, which is not well-formed base 64, and 42, when it decodes at all, gives 31 bytes |
| MegaDL.ShortKeyLeavesId | lib/MegaDL.cpp:23-33 | A current-layout link `prefix + ID + "#" + KEY`, for a prefix that is empty or ends in `/`, holds no `#` and leaves the link within `max_size()`, and an 8-character URL-safe id, a 40- to 42-character URL-safe KEY and a link of at least 52 characters, passes the parser, so its id is stored, and then throws "Invalid node key." |
| MegaDL.FetchThenDownload | lib/MegaDL.cpp:134-189 | On an object holding an id, a fetch whose reply has both members and a non-empty URL returns the size, and the download then targets `path` plus that id and the reply's URL |

## Left out

- The network part of `fetch_url` is left out: the JSON request, the curl POST and the JSON parsing. The reply's `g` and `s` members are a parameter (`MegaDL.Reply`), with `None` for a member that is absent or has the wrong type.
- `download` after its two guards is left out: the curl transfer, the progress callback, the AES-CTR decryption of each chunk and the writes to the output file. These are I/O and a third-party cipher.
- `download` opens the output file before `get_url` can throw, so a missing URL leaves an empty file behind. File creation is I/O and is not modelled.
- The AES key schedule and the counter mode inside `SetKeyWithIV` are left out. The model stops at the key and IV handed to it (`NodeKey.CipherContext`).
- NodeKey.DecodeKey: the decoder accepts only text whose length is a multiple of 4 and that holds nothing but alphabet characters and trailing `=`. `mbedtls_base64_decode` also skips spaces, line breaks and `\r\n`, and how it treats a final group of fewer than four characters depends on its version. `decode_url` copies every character of the link after the delimiter into the key, white space included. The two still agree on what `decode_key` does with the 44-character key: key text with white space has at most 43 significant characters, at least one of them a trailing `=`, so mbedtls either fails or yields fewer than 32 bytes, and `decode_key` throws "Invalid node key." in both the program and the model.
- NodeKey.DecodeKey: the output buffer of `key.size()*3/4` bytes is not modelled. For text whose length is a multiple of 4, the decoded length never exceeds it, so the "buffer too small" path of mbedtls cannot arise.
- `src/main.cpp` (command-line parsing and printing) and `lib/include/MegaDL.hpp` are not part of this model. The main program calls a `download` overload that takes an output stream, declared in the header; the model follows `download(std::string path, …)` as lib/MegaDL.cpp:186-189 defines it.
- `std::string` allocation failure (`length_error`, `bad_alloc`) is not modelled. Link lengths are bounded by `max_size()` (`CppString.CppStr`).
- Text is a sequence of `char` values and bytes are `bv8`. Each `char` stands for one byte of the `std::string`: a non-ASCII link is modelled by its UTF-8 bytes, and the length checks (52, 8, 40 to 43) count bytes. A character outside the base 64 alphabet makes the decoder fail. mbedtls fails on it too, except on the white space it skips (see the `NodeKey.DecodeKey` line above).
- The `reinterpret_cast<uint64_t*>` reads and writes at lib/MegaDL.cpp:35-48 are undefined behaviour under the strict aliasing rule. They may also be misaligned, since a 16-character `std::string` can keep its characters in the object's inline buffer. The model assumes each acts as a plain 8-byte load or store in the host's byte order (`NodeKey.LoadWord`, `NodeKey.StoreWord`).

=== FILE: base64.dfy ===
/**
 * Base 64 encoding with the standard alphabet and `=` padding, as laid down in
 * section 4 of RFC 4648. `MegaDL::decode_key` hands this job to
 * `mbedtls_base64_decode`; the decoder below is the specified stand-in for it.
 */
module Base64 {
  import opened Results

  /** A 6-bit group: the value one base 64 character carries. */
  type Sextet = x: int | 0 <= x < 64

  const Pad: char := '='

  /** The 64 characters of the standard alphabet (Table 1 of RFC 4648). */
  predicate IsAlphabetChar(c: char) {
    'A' <= c <= 'Z' || 'a' <= c <= 'z' || '0' <= c <= '9' || c == '+' || c == '/'
  }

  function SextetOf(c: char): Sextet
    requires IsAlphabetChar(c)
  {
    if 'A' <= c <= 'Z' then c as int - 'A' as int
    else if 'a' <= c <= 'z' then c as int - 'a' as int + 26
    else if '0' <= c <= '9' then c as int - '0' as int + 52
    else if c == '+' then 62
    else 63
  }

  /** The alphabet character that carries `x`; `SextetOf` reads it back. */
  function AlphabetChar(x: Sextet): (c: char)
    ensures IsAlphabetChar(c) && SextetOf(c) == x
  {
    if x < 26 then ('A' as int + x) as char
    else if x < 52 then ('a' as int + (x - 26)) as char
    else if x < 62 then ('0' as int + (x - 52)) as char
    else if x == 62 then '+'
    else '/'
  }

  /** Every alphabet character is the encoding of the value it decodes to. */
  lemma AlphabetCharOfSextet(c: char)
    requires IsAlphabetChar(c)
    ensures AlphabetChar(SextetOf(c)) == c
  {
  }

  // ---------------------------------------------------------------------------
  // 24-bit groups

  /** Splits three bytes, most significant bit first, into four sextets. */
  function SplitGroup(b0: bv8, b1: bv8, b2: bv8): (s: seq<Sextet>)
    ensures |s| == 4
  {
    [ (b0 >> 2) as int,
      (((b0 & 3) << 4) | (b1 >> 4)) as int,
      (((b1 & 15) << 2) | (b2 >> 6)) as int,
      (b2 & 63) as int ]
  }

  /** Joins four sextets back into the three bytes of a 24-bit group. */
  function JoinGroup(s0: Sextet, s1: Sextet, s2: Sextet, s3: Sextet): (b: seq<bv8>)
    ensures |b| == 3
  {
    var t0, t1, t2, t3 := s0 as bv8, s1 as bv8, s2 as bv8, s3 as bv8;
    [(t0 << 2) | (t1 >> 4), (t1 << 4) | (t2 >> 2), (t2 << 6) | t3]
  }

  lemma ShiftsRoundTrip(b0: bv8, b1: bv8, b2: bv8)
    ensures var t0, t1, t2, t3 := b0 >> 2, ((b0 & 3) << 4) | (b1 >> 4), ((b1 & 15) << 2) | (b2 >> 6), b2 & 63;
            [(t0 << 2) | (t1 >> 4), (t1 << 4) | (t2 >> 2), (t2 << 6) | t3] == [b0, b1, b2]
  {
  }

  lemma NarrowWiden(x: bv8)
    ensures (x as int) as bv8 == x
  {
  }

  /** Joining the sextets of a split group gives the group back. */
  lemma JoinSplit(b0: bv8, b1: bv8, b2: bv8)
    ensures var s := SplitGroup(b0, b1, b2); JoinGroup(s[0], s[1], s[2], s[3]) == [b0, b1, b2]
  {
    ShiftsRoundTrip(b0, b1, b2);
    NarrowWiden(b0 >> 2);
    NarrowWiden(((b0 & 3) << 4) | (b1 >> 4));
    NarrowWiden(((b1 & 15) << 2) | (b2 >> 6));
    NarrowWiden(b2 & 63);
  }

  // ---------------------------------------------------------------------------
  // Well-formed text

  /** How many `=` end `s`, counting at most the two a text may carry. */
  function PadLength(s: string): (n: nat)
    ensures n <= 2 && n <= |s|
  {
    if |s| >= 2 && s[|s| - 2] == Pad && s[|s| - 1] == Pad then 2
    else if |s| >= 1 && s[|s| - 1] == Pad then 1
    else 0
  }

  /**
   * A complete encoded text: whole 4-character quanta, alphabet characters
   * only, except for one or two `=` that close the final quantum.
   */
  predicate IsWellFormed(s: string) {
    && |s| % 4 == 0
    && forall i :: 0 <= i < |s| - PadLength(s) ==> IsAlphabetChar(s[i])
  }

  predicate IsFullQuantum(q: string)
    requires |q| == 4
  {
    IsAlphabetChar(q[0]) && IsAlphabetChar(q[1]) && IsAlphabetChar(q[2]) && IsAlphabetChar(q[3])
  }

  /** Decodes a quantum of four alphabet characters into its three bytes. */
  function DecodeQuantum(q: string): (b: seq<bv8>)
    requires |q| == 4 && IsFullQuantum(q)
    ensures |b| == 3
  {
    JoinGroup(SextetOf(q[0]), SextetOf(q[1]), SextetOf(q[2]), SextetOf(q[3]))
  }

  /** Decodes the last quantum of a text, which may carry one or two `=`. */
  function DecodeFinalQuantum(q: string): (r: Option<seq<bv8>>)
    requires |q| == 4
    ensures r.Some? <==> IsWellFormed(q)
    ensures r.Some? ==> |r.value| == 3 - PadLength(q)
  {
    if !IsAlphabetChar(q[0]) || !IsAlphabetChar(q[1]) then None
    else if q[2] == Pad && q[3] == Pad then
      Some(JoinGroup(SextetOf(q[0]), SextetOf(q[1]), 0, 0)[..1])
    else if !IsAlphabetChar(q[2]) then None
    else if q[3] == Pad then
      Some(JoinGroup(SextetOf(q[0]), SextetOf(q[1]), SextetOf(q[2]), 0)[..2])
    else if !IsAlphabetChar(q[3]) then None
    else Some(DecodeQuantum(q))
  }

  /** Decodes `s`, or reports that it is not a well-formed base 64 text. */
  function Decode(s: string): (r: Option<seq<bv8>>)
    ensures r.Some? ==> |s| % 4 == 0
    decreases |s|
  {
    if |s| % 4 != 0 then None
    else if |s| == 0 then Some([])
    else if |s| == 4 then DecodeFinalQuantum(s)
    else if !IsFullQuantum(s[..4]) then None
    else
      match Decode(s[4..])
      case None => None
      case Some(rest) => Some(DecodeQuantum(s[..4]) + rest)
  }

  /** A text longer than one quantum is well formed iff its first quantum is full and the rest is well formed. */
  lemma {:induction false} WellFormedSplit(s: string)
    requires |s| > 4 && |s| % 4 == 0
    ensures IsWellFormed(s) <==> IsFullQuantum(s[..4]) && IsWellFormed(s[4..])
  {
    assert PadLength(s) == PadLength(s[4..]);
    if IsWellFormed(s) {
      forall i | 0 <= i < |s[4..]| - PadLength(s[4..])
        ensures IsAlphabetChar(s[4..][i])
      {
        assert s[4..][i] == s[i + 4];
      }
    }
    if IsFullQuantum(s[..4]) && IsWellFormed(s[4..]) {
      forall i | 0 <= i < |s| - PadLength(s)
        ensures IsAlphabetChar(s[i])
      {
        if i >= 4 { assert s[i] == s[4..][i - 4]; } else { assert s[i] == s[..4][i]; }
      }
    }
  }

  /**
   * Decoding succeeds exactly on well-formed texts, and yields three bytes per
   * quantum less one per `=`.
   */
  lemma {:induction false} DecodeSpec(s: string)
    ensures Decode(s).Some? <==> IsWellFormed(s)
    ensures Decode(s).Some? ==> |Decode(s).value| == |s| / 4 * 3 - PadLength(s)
    decreases |s|
  {
    if |s| % 4 != 0 || |s| == 0 || |s| == 4 {
    } else {
      WellFormedSplit(s);
      DecodeSpec(s[4..]);
      if !IsFullQuantum(s[..4]) {
      } else if Decode(s[4..]).Some? {
        assert PadLength(s) == PadLength(s[4..]);
        assert |s| / 4 * 3 == |s[4..]| / 4 * 3 + 3;
      }
    }
  }

  // ---------------------------------------------------------------------------
  // Encoding

  /** The number of `=` that close the encoding of `n` bytes. */
  function PadsFor(n: nat): nat {
    (3 - n % 3) % 3
  }

  function GroupChars(s: seq<Sextet>): (t: string)
    requires |s| == 4
    ensures |t| == 4 && IsFullQuantum(t)
  {
    [AlphabetChar(s[0]), AlphabetChar(s[1]), AlphabetChar(s[2]), AlphabetChar(s[3])]
  }

  lemma GroupAligned(n: nat)
    ensures (n + 3 + 2) / 3 * 4 == (n + 2) / 3 * 4 + 4
    ensures PadsFor(n + 3) == PadsFor(n)
  {
  }

  /** Encodes `b`; the final partial group is zero-filled and closed with `=`. */
  function Encode(b: seq<bv8>): (s: string)
    ensures |s| == (|b| + 2) / 3 * 4
    ensures forall i :: 0 <= i < |s| - PadsFor(|b|) ==> IsAlphabetChar(s[i])
    ensures forall i :: |s| - PadsFor(|b|) <= i < |s| ==> s[i] == Pad
  {
    if |b| == 0 then []
    else if |b| == 1 then
      var g := SplitGroup(b[0], 0, 0);
      [AlphabetChar(g[0]), AlphabetChar(g[1]), Pad, Pad]
    else if |b| == 2 then
      var g := SplitGroup(b[0], b[1], 0);
      [AlphabetChar(g[0]), AlphabetChar(g[1]), AlphabetChar(g[2]), Pad]
    else
      var head := GroupChars(SplitGroup(b[0], b[1], b[2]));
      var tail := Encode(b[3..]);
      GroupAligned(|b| - 3);
      head + tail
  }

  /** A lone final byte survives encoding into `xx==` and decoding back. */
  lemma DecodeEncodeOne(b0: bv8)
    ensures Decode(Encode([b0])) == Some([b0])
  {
    var g := SplitGroup(b0, 0, 0);
    assert g[2] == 0 && g[3] == 0;
    JoinSplit(b0, 0, 0);
    var s := Encode([b0]);
    assert s == [AlphabetChar(g[0]), AlphabetChar(g[1]), Pad, Pad];
    assert Decode(s) == Some(JoinGroup(g[0], g[1], 0, 0)[..1]);
    assert JoinGroup(g[0], g[1], g[2], g[3]) == [b0, 0, 0];
    assert JoinGroup(g[0], g[1], 0, 0) == [b0, 0, 0];
    assert JoinGroup(g[0], g[1], 0, 0)[..1] == [b0];
  }

  /** Two final bytes survive encoding into `xxx=` and decoding back. */
  lemma DecodeEncodeTwo(b0: bv8, b1: bv8)
    ensures Decode(Encode([b0, b1])) == Some([b0, b1])
  {
    var g := SplitGroup(b0, b1, 0);
    assert g[3] == 0;
    JoinSplit(b0, b1, 0);
    var s := Encode([b0, b1]);
    assert s == [AlphabetChar(g[0]), AlphabetChar(g[1]), AlphabetChar(g[2]), Pad];
    assert Decode(s) == Some(JoinGroup(g[0], g[1], g[2], 0)[..2]);
    assert JoinGroup(g[0], g[1], g[2], g[3]) == [b0, b1, 0];
    assert JoinGroup(g[0], g[1], g[2], 0)[..2] == [b0, b1];
  }

  /** The characters of a split group decode to that group. */
  lemma GroupCharsDecode(b0: bv8, b1: bv8, b2: bv8)
    ensures DecodeQuantum(GroupChars(SplitGroup(b0, b1, b2))) == [b0, b1, b2]
  {
    JoinSplit(b0, b1, b2);
  }

  lemma {:induction false} DecodeLastFullQuantum(s: string)
    requires |s| == 4 && IsFullQuantum(s)
    ensures Decode(s) == Some(DecodeQuantum(s))
  {
    assert s[2] != Pad && s[3] != Pad;
  }

  lemma {:induction false} DecodeFirstOfSeveral(s: string)
    requires |s| > 4 && IsFullQuantum(s[..4]) && Decode(s[4..]).Some?
    ensures Decode(s) == Some(DecodeQuantum(s[..4]) + Decode(s[4..]).value)
  {
    QuantumAligned(|s[4..]|);
  }

  lemma QuantumAligned(n: nat)
    requires n % 4 == 0
    ensures (n + 4) % 4 == 0
  {
  }

  /** A full leading quantum decodes to its group, ahead of whatever follows. */
  lemma {:induction false} DecodeLeadingQuantum(s: string)
    requires |s| >= 4 && IsFullQuantum(s[..4]) && Decode(s[4..]).Some?
    ensures Decode(s) == Some(DecodeQuantum(s[..4]) + Decode(s[4..]).value)
  {
    if |s| == 4 {
      assert s[..4] == s;
      DecodeLastFullQuantum(s);
      assert Decode(s[4..]) == Some([]);
      AppendEmpty(DecodeQuantum(s[..4]), Decode(s[4..]).value);
    } else {
      DecodeFirstOfSeveral(s);
    }
  }

  lemma AppendEmpty<T>(a: seq<T>, e: seq<T>)
    requires |e| == 0
    ensures a + e == a
  {
  }

  lemma {:induction false} DecodeLeadingGroup(b0: bv8, b1: bv8, b2: bv8, tail: string)
    requires Decode(tail).Some?
    ensures Decode(GroupChars(SplitGroup(b0, b1, b2)) + tail) == Some([b0, b1, b2] + Decode(tail).value)
  {
    var head := GroupChars(SplitGroup(b0, b1, b2));
    var s := head + tail;
    assert s[..4] == head;
    assert s[4..] == tail;
    GroupCharsDecode(b0, b1, b2);
    DecodeLeadingQuantum(s);
  }

  /** Encoding `b` puts its first group's quantum ahead of the encoding of the rest. */
  lemma {:induction false} EncodeLeadingGroup(b: seq<bv8>)
    requires |b| >= 3
    ensures Encode(b) == GroupChars(SplitGroup(b[0], b[1], b[2])) + Encode(b[3..])
  {
  }

  lemma ThreeAndRest<T>(b: seq<T>)
    requires |b| >= 3
    ensures b == [b[0], b[1], b[2]] + b[3..]
  {
  }

  /** The round trip for `b` follows from the round trip for all but its first group. */
  lemma {:induction false} DecodeEncodeStep(b: seq<bv8>)
    requires |b| >= 3 && Decode(Encode(b[3..])) == Some(b[3..])
    ensures Decode(Encode(b)) == Some(b)
  {
    EncodeLeadingGroup(b);
    DecodeLeadingGroup(b[0], b[1], b[2], Encode(b[3..]));
    ThreeAndRest(b);
  }

  /** Decoding an encoding gives back exactly the bytes that were encoded. */
  lemma {:induction false} DecodeEncode(b: seq<bv8>)
    ensures Decode(Encode(b)) == Some(b)
    decreases |b|
  {
    if |b| == 0 {
    } else if |b| == 1 {
      assert b == [b[0]];
      DecodeEncodeOne(b[0]);
    } else if |b| == 2 {
      assert b == [b[0], b[1]];
      DecodeEncodeTwo(b[0], b[1]);
    } else {
      DecodeEncode(b[3..]);
      DecodeEncodeStep(b);
    }
  }
}

=== FILE: cppstring.dfy ===
/**
 * The few pieces of `std::string` and `size_t` that the link parser relies on,
 * with the unsigned 64-bit arithmetic written out.
 */
module CppString {
  import opened Results

  /**
   * `size_t` is modelled as a 64-bit unsigned integer. For links shorter than
   * the modulus the parser's results do not depend on this width: only the
   * value of `npos` and the wrapped intermediate positions would change.
   */
  const SizeModulus: int := 0x1_0000_0000_0000_0000
  /** `std::string::npos`, the largest `size_t`. */
  const Npos: int := SizeModulus - 1

  type SizeT = x: int | 0 <= x < SizeModulus

  /** `std::string::max_size()` of libstdc++ on 64-bit targets, far below `npos`. */
  const MaxSize: int := 0x3FFF_FFFF_FFFF_FFFF

  /** A C++ string: never longer than `max_size()` characters. */
  type CppStr = s: string | |s| <= MaxSize

  /**
   * An unsigned result reduced modulo 2^64. Every unreduced value the link
   * parser forms lies in [-2^64, 2 * 2^64) (the sum of three terms for `init_pos`
   * stays below 2 * 2^64), so one correction step is enough.
   */
  function Wrap(x: int): (r: SizeT)
    requires -SizeModulus <= x < 2 * SizeModulus
    ensures r == x - SizeModulus || r == x || r == x + SizeModulus
  {
    if x < 0 then x + SizeModulus
    else if x >= SizeModulus then x - SizeModulus
    else x
  }

  /** The one correction step is reduction modulo 2^64, the C++ rule for unsigned integers. */
  lemma WrapIsMod(x: int)
    requires -SizeModulus <= x < 2 * SizeModulus
    ensures Wrap(x) == x % SizeModulus
  {
  }

  predicate OccursAt(s: string, pat: string, i: int) {
    0 <= i && i + |pat| <= |s| && s[i..i + |pat|] == pat
  }

  /** First occurrence of `pat` in `s` at or after `from`. */
  function FirstOccurrenceFrom(s: string, pat: string, from: nat): (r: Option<nat>)
    ensures r.Some? ==> from <= r.value && OccursAt(s, pat, r.value)
    ensures r.Some? ==> forall j :: from <= j < r.value ==> !OccursAt(s, pat, j)
    ensures r.None? ==> forall j :: from <= j ==> !OccursAt(s, pat, j)
    decreases |s| - from
  {
    if from + |pat| > |s| then None
    else if s[from..from + |pat|] == pat then Some(from)
    else FirstOccurrenceFrom(s, pat, from + 1)
  }

  /** `s.find(pat)`: the first position where `pat` occurs, or `npos`. */
  function Find(s: CppStr, pat: string): (r: SizeT)
    ensures r == Npos <==> forall j :: 0 <= j ==> !OccursAt(s, pat, j)
    ensures r != Npos ==> OccursAt(s, pat, r) && forall j :: 0 <= j < r ==> !OccursAt(s, pat, j)
  {
    match FirstOccurrenceFrom(s, pat, 0)
    case Some(i) => i
    case None => Npos
  }

  /** Position `p` holds the last `c` of `s`. */
  predicate IsLastOf(s: string, c: char, p: int) {
    0 <= p < |s| && s[p] == c && c !in s[p + 1..]
  }

  /** The position of the last `c` in `s`, if any. */
  function LastIndexOf(s: string, c: char): (r: Option<nat>)
    ensures r.Some? ==> IsLastOf(s, c, r.value)
    ensures r.None? <==> c !in s
  {
    if |s| == 0 then None
    else if s[|s| - 1] == c then Some(|s| - 1)
    else
      var r := LastIndexOf(s[..|s| - 1], c);
      assert c in s ==> c in s[..|s| - 1] by {
        if c in s {
          var k :| 0 <= k < |s| && s[k] == c;
          assert s[..|s| - 1][k] == c;
        }
      }
      r
  }

  /** `s.find_last_of(c)`: the last position holding `c`, or `npos`. */
  function FindLastOf(s: CppStr, c: char): (r: SizeT)
    ensures r == Npos <==> c !in s
    ensures r != Npos ==> IsLastOf(s, c, r)
  {
    match LastIndexOf(s, c)
    case Some(i) => i
    case None => Npos
  }

  /** The last `c` is unique, so `find_last_of` finds exactly it. */
  lemma FindLastOfAt(s: CppStr, c: char, p: int)
    requires IsLastOf(s, c, p)
    ensures FindLastOf(s, c) == p
  {
    assert c in s;
    var r := FindLastOf(s, c);
    assert IsLastOf(s, c, r);
  }

  /**
   * `s.substr(pos, count)`: throws `out_of_range` when `pos` is past the end,
   * otherwise takes `count` characters, or what remains if that is fewer.
   */
  function Substr(s: CppStr, pos: SizeT, count: SizeT): (r: Result<CppStr>)
    ensures r.Err? <==> pos > |s|
    ensures r.Err? ==> r.error == OutOfRange
    ensures r.Ok? ==> r.value == s[pos..pos + (if count <= |s| - pos then count else |s| - pos)]
  {
    if pos > |s| then Err(OutOfRange)
    else if count <= |s| - pos then Ok(s[pos..pos + count])
    else Ok(s[pos..])
  }

  lemma SubstrWithin(s: CppStr, pos: SizeT, count: SizeT)
    requires pos + count <= |s|
    ensures Substr(s, pos, count) == Ok(s[pos..pos + count])
  {
  }

  lemma SubstrTail(s: CppStr, pos: SizeT, count: SizeT)
    requires pos <= |s| && |s| - pos <= count
    ensures Substr(s, pos, count) == Ok(s[pos..])
  {
    assert s[pos..pos + (|s| - pos)] == s[pos..];
  }

  /** `std::replace(s.begin(), s.end(), from, to)`. */
  function Replace(s: string, from: char, to: char): (r: string)
    ensures |r| == |s|
    ensures forall i :: 0 <= i < |s| ==> r[i] == (if s[i] == from then to else s[i])
  {
    if |s| == 0 then []
    else Replace(s[..|s| - 1], from, to) + [if s[|s| - 1] == from then to else s[|s| - 1]]
  }

  /** The string `std::string(n, c)`, as appended by `s.append(n, c)`. */
  function Repeat(c: char, n: nat): (r: string)
    ensures |r| == n
    ensures forall i :: 0 <= i < n ==> r[i] == c
  {
    if n == 0 then [] else Repeat(c, n - 1) + [c]
  }
}

=== FILE: megadl.dfy ===
/**
 * The state of a `MegaDL` object and the operations that change or guard it:
 * `build_context` (and the constructor that calls it), `get_id`, `get_url`,
 * the state effect of `fetch_url`, and the guards `download` runs before it
 * opens any connection.
 *
 * An operation that throws in the C++ class returns `Err` here, together with
 * the state as the exception leaves it.
 */
module MegaDL {
  import opened Results
  import opened CppString
  import opened Base64
  import opened UrlParser
  import opened NodeKey

  /** The fields of a `MegaDL` object: file id, download URL, and the AES-CTR context once keyed. */
  datatype Session = Session(id: string, url: string, context: Option<CipherContext>)

  /** The new state of an operation together with what it returned or threw. */
  datatype Step<T> = Step(session: Session, result: Result<T>)

  /** A default-constructed object: empty id and URL, cipher not keyed. */
  function Initial(): (s: Session)
    ensures s.id == [] && s.url == [] && s.context == None
  {
    Session([], [], None)
  }

  /** Exceptions `build_context` can raise. */
  predicate IsBuildFailure(f: Failure) {
    f in {InvalidUrl, InvalidUrlId, InvalidUrlKey, OutOfRange, InvalidNodeKey}
  }

  /**
   * `MegaDL::build_context`. The id is stored as soon as the link parses, before
   * the key is decoded, so a link with a bad key still leaves its id behind. The
   * download URL is never touched. `e` is the host's byte order.
   */
  function BuildContext(s: Session, link: CppStr, e: Endian): (r: Step<()>)
    ensures r.session.url == s.url
    ensures r.result.Err? ==> IsBuildFailure(r.result.error)
    ensures DecodeUrl(link).Err? ==> r == Step(s, Err(DecodeUrl(link).error))
    ensures DecodeUrl(link).Ok? ==> r.session.id == DecodeUrl(link).value.id
    ensures r.result.Ok? <==> DecodeUrl(link).Ok? && DecodeKey(DecodeUrl(link).value.key).Ok?
    ensures r.result.Ok? ==> |r.session.id| == IdLength
    ensures r.result.Ok? ==>
              r.session.context == Some(UnpackNodeKey(DecodeKey(DecodeUrl(link).value.key).value, e))
    ensures r.result.Err? ==> r.session.context == s.context
    ensures DecodeUrl(link).Ok? && r.result.Err? ==> r.result.error == InvalidNodeKey
  {
    match DecodeUrl(link)
    case Err(f) => Step(s, Err(f))
    case Ok(parts) =>
      var named := s.(id := parts.id);
      match DecodeKey(parts.key)
      case Err(f) => Step(named, Err(f))
      case Ok(node) => Step(named.(context := Some(UnpackNodeKey(node, e))), Ok(()))
  }

  /**
   * `MegaDL::MegaDL(std::string url)`: a fresh object keyed from `link`. When
   * `build_context` throws, so does the constructor, and no object exists.
   */
  function Construct(link: CppStr, e: Endian): (r: Result<Session>)
    ensures r.Ok? <==> DecodeUrl(link).Ok? && DecodeKey(DecodeUrl(link).value.key).Ok?
    ensures DecodeUrl(link).Err? ==> r == Err(DecodeUrl(link).error)
    ensures r.Err? ==> IsBuildFailure(r.error)
    ensures DecodeUrl(link).Ok? && r.Err? ==> r.error == InvalidNodeKey
    ensures r.Ok? ==> r.value.url == [] && r.value.id == DecodeUrl(link).value.id
    ensures r.Ok? ==>
              r.value.context == Some(UnpackNodeKey(DecodeKey(DecodeUrl(link).value.key).value, e))
  {
    var step := BuildContext(Initial(), link, e);
    if step.result.Err? then Err(step.result.error) else Ok(step.session)
  }

  /** `MegaDL::get_id`: refuses until an id has been stored. */
  function GetId(s: Session): (r: Result<string>)
    ensures r.Ok? <==> |s.id| > 0
    ensures r.Ok? ==> r.value == s.id
    ensures r.Err? ==> r.error == EmptyId
  {
    if |s.id| == 0 then Err(EmptyId) else Ok(s.id)
  }

  /** `MegaDL::get_url`: refuses until a download URL has been fetched. */
  function GetUrl(s: Session): (r: Result<string>)
    ensures r.Ok? <==> |s.url| > 0
    ensures r.Ok? ==> r.value == s.url
    ensures r.Err? ==> r.error == EmptyUrl
  {
    if |s.url| == 0 then Err(EmptyUrl) else Ok(s.url)
  }

  /**
   * The `g` (download URL) and `s` (size) members of the first element of the
   * API reply, as the JSON conversion yields them; `None` where the reply has
   * no such member or one of the wrong type, which makes the conversion throw.
   */
  datatype Reply = Reply(link: Option<string>, size: Option<SizeT>)

  /**
   * The state effect of `MegaDL::fetch_url`. The request needs the id, so an
   * object without one fails before any request is made; the URL is stored
   * before the size is converted.
   */
  function FetchUrl(s: Session, reply: Reply): (r: Step<SizeT>)
    ensures r.session.id == s.id && r.session.context == s.context
    ensures |s.id| == 0 ==> r == Step(s, Err(EmptyId))
    ensures r.result.Ok? <==> |s.id| > 0 && reply.link.Some? && reply.size.Some?
    ensures r.result.Ok? ==> r.session.url == reply.link.value && r.result.value == reply.size.value
    ensures |s.id| > 0 && reply.link.Some? ==> r.session.url == reply.link.value
    ensures reply.link.None? ==> r.session.url == s.url
    ensures |s.id| > 0 && r.result.Err? ==> r.result.error == MalformedReply
  {
    match GetId(s)
    case Err(f) => Step(s, Err(f))
    case Ok(_) =>
      match reply.link
      case None => Step(s, Err(MalformedReply))
      case Some(g) =>
        var stored := s.(url := g);
        match reply.size
        case None => Step(stored, Err(MalformedReply))
        case Some(n) => Step(stored, Ok(n))
  }

  /**
   * The guards of `MegaDL::download`: the output file is `path` followed by the
   * id, and the transfer needs the fetched URL. Yields the file name and URL.
   */
  function DownloadTarget(s: Session, path: string): (r: Result<(string, string)>)
    ensures |s.id| == 0 ==> r == Err(EmptyId)
    ensures |s.id| > 0 && |s.url| == 0 ==> r == Err(EmptyUrl)
    ensures r.Ok? <==> |s.id| > 0 && |s.url| > 0
    ensures r.Ok? ==> |r.value.0| == |path| + |s.id|
    ensures r.Ok? ==> r.value.0[..|path|] == path && r.value.0[|path|..] == s.id && r.value.1 == s.url
  {
    var id :- GetId(s);
    var url :- GetUrl(s);
    Ok((path + id, url))
  }

  // ---------------------------------------------------------------------------
  // From node key to link and back

  /** The key text a link carries for `node`: URL-safe base 64 without its one `=`. */
  function ShareKey(node: seq<bv8>): string
    requires |node| == NodeKeyLength
  {
    ToUrlSafe(Encode(node))[..43]
  }

  /** Padding and normalising the key text of a link restores the standard encoding. */
  lemma {:induction false} ShareKeyPads(node: seq<bv8>)
    requires |node| == NodeKeyLength
    ensures |ShareKey(node)| == 43 && IsUrlSafe(ShareKey(node))
    ensures PaddedKey(ShareKey(node)) == Encode(node)
  {
    var text := Encode(node);
    assert |text| == 44 && PadsFor(|node|) == 1;
    var raw := ShareKey(node);
    forall i | 0 <= i < 43
      ensures IsUrlSafeChar(raw[i]) && text[i] != '_' && text[i] != '-'
    {
      assert IsAlphabetChar(text[i]);
    }
    assert raw == ToUrlSafe(text[..43]);
    NormalizeToUrlSafe(text[..43]);
    assert PaddedKey(raw) == text[..43] + [Pad];
    assert text == text[..43] + [text[43]];
  }

  /** A link in the current layout keys the object with the node key it was made from. */
  lemma {:induction false} NewLinkBuilds(s: Session, prefix: string, id: string, node: seq<bv8>, e: Endian)
    requires IsLinkPrefix(prefix)
    requires |id| == IdLength && IsUrlSafe(id)
    requires |node| == NodeKeyLength
    ensures |NewLink(prefix, id, ShareKey(node))| <= MaxSize
    ensures BuildContext(s, NewLink(prefix, id, ShareKey(node)), e)
         == Step(s.(id := id, context := Some(UnpackNodeKey(node, e))), Ok(()))
  {
    ShareKeyPads(node);
    NewLinkDecodes(prefix, id, ShareKey(node));
    DecodeKeyEncode(node);
  }

  /** A link in the legacy layout keys the object with the node key it was made from. */
  lemma {:induction false} LegacyLinkBuilds(s: Session, prefix: string, id: string, node: seq<bv8>, e: Endian)
    requires IsLinkPrefix(prefix)
    requires |id| == IdLength && IsUrlSafe(id)
    requires |node| == NodeKeyLength
    ensures |LegacyLink(prefix, id, ShareKey(node))| <= MaxSize
    ensures BuildContext(s, LegacyLink(prefix, id, ShareKey(node)), e)
         == Step(s.(id := id, context := Some(UnpackNodeKey(node, e))), Ok(()))
  {
    ShareKeyPads(node);
    LegacyLinkDecodes(prefix, id, ShareKey(node));
    DecodeKeyEncode(node);
  }

  /**
   * Of the raw key lengths the link parser lets through (40 to 43), only 43
   * can decode to a 32-byte node key: 40 and 41 leave more than two `=`, and
   * 42 decodes to 31 bytes.
   */
  lemma {:induction false} OnlyFullKeysDecode(raw: string)
    requires 40 <= |raw| <= 43
    ensures |raw| <= 41 ==> !IsWellFormed(PaddedKey(raw))
    ensures |raw| == 42 && Decode(PaddedKey(raw)).Some? ==> |Decode(PaddedKey(raw)).value| == 31
    ensures DecodeKey(PaddedKey(raw)).Ok? ==> |raw| == 43
  {
    var key := PaddedKey(raw);
    PaddedKeyLength(raw);
    DecodeSpec(key);
    if |raw| == 40 || |raw| == 41 {
      assert key[41] == Pad && !IsAlphabetChar(key[41]);
      assert !IsWellFormed(key);
    } else if |raw| == 42 {
      assert key[42] == Pad && key[43] == Pad;
      assert PadLength(key) == 2;
    }
  }

  /**
   * A current-layout link `NewLink(prefix, id, raw)` with a well-formed prefix,
   * an 8-character URL-safe id, a 40- to 42-character URL-safe key part and at
   * least 52 characters in all passes the link parser, so its id is stored,
   * and then fails as an invalid node key.
   */
  lemma {:induction false} ShortKeyLeavesId(s: Session, prefix: string, id: string, raw: string, e: Endian)
    requires IsLinkPrefix(prefix)
    requires |id| == IdLength && IsUrlSafe(id)
    requires 40 <= |raw| <= 42 && IsUrlSafe(raw)
    requires |prefix| + 9 + |raw| >= MinUrlLength
    ensures |NewLink(prefix, id, raw)| <= MaxSize
    ensures BuildContext(s, NewLink(prefix, id, raw), e) == Step(s.(id := id), Err(InvalidNodeKey))
  {
    NewLinkDecodes(prefix, id, raw);
    OnlyFullKeysDecode(raw);
  }

  /**
   * The intended call sequence after construction: fetch, then download. On an
   * object that holds an id (as every successful `build_context` leaves one),
   * a reply with both members and a non-empty URL makes the download write to
   * `path` plus that id and read from the URL of the reply.
   */
  lemma FetchThenDownload(s: Session, reply: Reply, path: string)
    requires |s.id| > 0
    requires reply.link.Some? && |reply.link.value| > 0 && reply.size.Some?
    ensures var f := FetchUrl(s, reply);
            && f.result == Ok(reply.size.value)
            && DownloadTarget(f.session, path) == Ok((path + s.id, reply.link.value))
  {
  }
}

=== FILE: nodekey.dfy ===
/**
 * The 32-byte node key carried in a link, and the AES key and counter IV
 * unpacked from it (`MegaDL::decode_key` and the body of
 * `MegaDL::build_context`).
 *
 * The source reads and writes the key buffers as arrays of `uint64_t`. A
 * 64-bit value is modelled by its eight byte lanes, least significant first,
 * and the host's byte order is a parameter of the word load and store; the
 * unpacked context is proved not to depend on it. Each cast access is taken to
 * be a plain 8-byte load or store, whatever its alignment.
 */
module NodeKey {
  import opened Results
  import opened Base64

  const NodeKeyLength := 32
  const AesKeyLength := 16
  const IvLength := 16

  datatype Endian = LittleEndian | BigEndian

  // ---------------------------------------------------------------------------
  // 64-bit words

  /** A `uint64_t` value as its byte lanes, least significant first. */
  type Word = w: seq<bv8> | |w| == 8 witness [0, 0, 0, 0, 0, 0, 0, 0]

  /** Bitwise exclusive or of two words, which acts on each lane separately. */
  function XorWords(x: Word, y: Word): Word {
    seq(8, k requires 0 <= k < 8 => x[k] ^ y[k])
  }

  function Reverse(b: seq<bv8>): (r: seq<bv8>)
    ensures |r| == |b|
    ensures forall i :: 0 <= i < |b| ==> r[i] == b[|b| - 1 - i]
  {
    seq(|b|, i requires 0 <= i < |b| => b[|b| - 1 - i])
  }

  /** Reading eight bytes of memory as one `uint64_t` on a host of byte order `e`. */
  function LoadWord(mem: seq<bv8>, e: Endian): Word
    requires |mem| == 8
  {
    if e.LittleEndian? then mem else Reverse(mem)
  }

  /** Writing one `uint64_t` to eight bytes of memory on a host of byte order `e`. */
  function StoreWord(w: Word, e: Endian): (mem: seq<bv8>)
    ensures |mem| == 8
  {
    if e.LittleEndian? then w else Reverse(w)
  }

  /** Word `j` of a buffer read as an array of `uint64_t`. */
  function WordAt(buf: seq<bv8>, j: nat, e: Endian): Word
    requires 8 * j + 8 <= |buf|
  {
    LoadWord(buf[8 * j..8 * j + 8], e)
  }

  /** The bytewise exclusive or of two equally long buffers. */
  function XorBytes(a: seq<bv8>, b: seq<bv8>): (c: seq<bv8>)
    requires |a| == |b|
    ensures |c| == |a|
  {
    seq(|a|, i requires 0 <= i < |a| => a[i] ^ b[i])
  }

  function Zeros(n: nat): (z: seq<bv8>)
    ensures |z| == n && forall i :: 0 <= i < n ==> z[i] == 0
  {
    seq(n, i => 0)
  }

  /** Storing a loaded word gives the same eight bytes back, whatever the byte order. */
  lemma {:induction false} StoreLoad(mem: seq<bv8>, e: Endian)
    requires |mem| == 8
    ensures StoreWord(LoadWord(mem, e), e) == mem
  {
    if e.BigEndian? {
      var r := Reverse(Reverse(mem));
      assert forall i :: 0 <= i < 8 ==> r[i] == mem[i];
    }
  }

  /** Exclusive or of two loaded words, stored back, is the bytewise exclusive or. */
  lemma {:induction false} StoreXor(a: seq<bv8>, b: seq<bv8>, e: Endian)
    requires |a| == 8 && |b| == 8
    ensures StoreWord(XorWords(LoadWord(a, e), LoadWord(b, e)), e) == XorBytes(a, b)
  {
    var s := StoreWord(XorWords(LoadWord(a, e), LoadWord(b, e)), e);
    forall i | 0 <= i < 8
      ensures s[i] == a[i] ^ b[i]
    {
      if e.BigEndian? {
        assert s[i] == LoadWord(a, e)[7 - i] ^ LoadWord(b, e)[7 - i];
      }
    }
  }

  // ---------------------------------------------------------------------------
  // Unpacking

  /** What `SetKeyWithIV` receives: a 16-byte AES key and a 16-byte counter block. */
  datatype CipherContext = CipherContext(key: seq<bv8>, iv: seq<bv8>)

  /** The AES key words `k0 ^ k2` and `k1 ^ k3`, stored back to memory. */
  function AesKeyOf(node: seq<bv8>, e: Endian): seq<bv8>
    requires |node| == NodeKeyLength
  {
    StoreWord(XorWords(WordAt(node, 0, e), WordAt(node, 2, e)), e)
    + StoreWord(XorWords(WordAt(node, 1, e), WordAt(node, 3, e)), e)
  }

  /** The IV: word `k2`, then the zero word the buffer was created with. */
  function IvOf(node: seq<bv8>, e: Endian): seq<bv8>
    requires |node| == NodeKeyLength
  {
    StoreWord(WordAt(node, 2, e), e) + Zeros(8)
  }

  lemma XorBytesConcat(a: seq<bv8>, b: seq<bv8>, c: seq<bv8>, d: seq<bv8>)
    requires |a| == |b| && |c| == |d|
    ensures XorBytes(a, b) + XorBytes(c, d) == XorBytes(a + c, b + d)
  {
  }

  lemma {:induction false} AesKeyBytewise(node: seq<bv8>, e: Endian)
    requires |node| == NodeKeyLength
    ensures AesKeyOf(node, e) == XorBytes(node[..16], node[16..])
  {
    StoreXor(node[0..8], node[16..24], e);
    StoreXor(node[8..16], node[24..32], e);
    XorBytesConcat(node[0..8], node[16..24], node[8..16], node[24..32]);
    assert node[0..8] + node[8..16] == node[..16];
    assert node[16..24] + node[24..32] == node[16..];
  }

  lemma {:induction false} IvBytewise(node: seq<bv8>, e: Endian)
    requires |node| == NodeKeyLength
    ensures IvOf(node, e) == node[16..24] + Zeros(8)
  {
    StoreLoad(node[16..24], e);
  }

  /**
   * The key and IV of `MegaDL::build_context`: with the node key read as four
   * words `k0 k1 k2 k3`, the AES key is `k0 ^ k2, k1 ^ k3` and the IV is `k2`
   * followed by a zero word. Byte for byte, the key is the exclusive or of the
   * two halves of the node key and the IV starts with the third quarter.
   */
  function UnpackNodeKey(node: seq<bv8>, e: Endian): (c: CipherContext)
    requires |node| == NodeKeyLength
    ensures c.key == XorBytes(node[..16], node[16..])
    ensures c.iv == node[16..24] + Zeros(8)
  {
    AesKeyBytewise(node, e);
    IvBytewise(node, e);
    CipherContext(AesKeyOf(node, e), IvOf(node, e))
  }

  /** The unpacked key and IV sizes and contents, byte by byte. */
  lemma {:induction false} UnpackedBytes(node: seq<bv8>, e: Endian)
    requires |node| == NodeKeyLength
    ensures var c := UnpackNodeKey(node, e);
            && |c.key| == AesKeyLength && |c.iv| == IvLength
            && (forall i :: 0 <= i < AesKeyLength ==> c.key[i] == node[i] ^ node[i + 16])
            && (forall i :: 0 <= i < 8 ==> c.iv[i] == node[i + 16])
            && (forall i :: 8 <= i < IvLength ==> c.iv[i] == 0)
  {
    var c := UnpackNodeKey(node, e);
    assert forall i :: 0 <= i < AesKeyLength ==> c.key[i] == node[..16][i] ^ node[16..][i];
  }

  /** The cipher context does not depend on the host's byte order. */
  lemma EndianIndependent(node: seq<bv8>)
    requires |node| == NodeKeyLength
    ensures UnpackNodeKey(node, LittleEndian) == UnpackNodeKey(node, BigEndian)
  {
  }

  /** The first half of the node key is the AES key exclusive-or'd with the IV. */
  lemma RecoverNodeKey(node: seq<bv8>, e: Endian)
    requires |node| == NodeKeyLength
    ensures var c := UnpackNodeKey(node, e);
            forall i :: 0 <= i < 8 ==> c.key[i] ^ c.iv[i] == node[i]
  {
    var c := UnpackNodeKey(node, e);
    UnpackedBytes(node, e);
    forall i | 0 <= i < 8
      ensures c.key[i] ^ c.iv[i] == node[i]
    {
      XorCancel(node[i], node[i + 16]);
    }
  }

  lemma XorCancel(a: bv8, b: bv8)
    ensures (a ^ b) ^ b == a
  {
  }

  // ---------------------------------------------------------------------------
  // Decoding the key text

  /**
   * `MegaDL::decode_key`: the base 64 text must decode, and to exactly 32
   * bytes. A failed decode leaves the output length at zero, so every failure
   * is reported as an invalid node key.
   */
  function DecodeKey(key: string): (r: Result<seq<bv8>>)
    ensures r.Err? ==> r.error == InvalidNodeKey
    ensures r.Ok? ==> |r.value| == NodeKeyLength
    ensures r.Ok? <==> IsWellFormed(key) && |key| / 4 * 3 - PadLength(key) == NodeKeyLength
  {
    DecodeSpec(key);
    match Decode(key)
    case None => Err(InvalidNodeKey)
    case Some(bytes) =>
      if |bytes| != NodeKeyLength then Err(InvalidNodeKey) else Ok(bytes)
  }

  /** Every 32-byte node key survives encoding and `decode_key`. */
  lemma DecodeKeyEncode(node: seq<bv8>)
    requires |node| == NodeKeyLength
    ensures DecodeKey(Encode(node)) == Ok(node)
  {
    DecodeEncode(node);
  }
}

=== FILE: results.dfy ===
/** Failure-carrying values that replace the C++ exceptions thrown by `MegaDL`. */
module Results {

  /** Every exception the modelled part of `MegaDL` can raise, one constructor per message. */
  datatype Failure =
    | InvalidUrl        // std::invalid_argument("Invalid URL.")
    | InvalidUrlId      // std::invalid_argument("Invalid URL ID.")
    | InvalidUrlKey     // std::invalid_argument("Invalid URL key.")
    | OutOfRange        // std::out_of_range raised by std::string::substr
    | InvalidNodeKey    // std::invalid_argument("Invalid node key.")
    | EmptyId           // std::runtime_error("Empty ID. ...")
    | EmptyUrl          // std::runtime_error("Empty URL. ...")
    | MalformedReply    // the metadata reply could not be parsed or lacks `g`/`s`

  datatype Option<+T> = None | Some(value: T)

  /** The value of an operation, or the exception it threw; usable with `:-`. */
  datatype Result<+T> = Ok(value: T) | Err(error: Failure) {
    predicate IsFailure() {
      Err?
    }

    /** The same exception, as the result of an operation of another type. */
    function PropagateFailure<U>(): Result<U>
      requires Err?
    {
      Err(error)
    }

    function Extract(): T
      requires Ok?
    {
      value
    }
  }
}

=== FILE: url.dfy ===
/**
 * `MegaDL::decode_url`: splits a Mega share link into the file id and the
 * base 64 node key, in either the current `/file/ID#KEY` layout or the legacy
 * `/#!ID!KEY` one. Every position is a `size_t`, and the unsigned wrap-around
 * of the C++ code is kept: a missing `/` counts as position -1, a missing
 * delimiter as `npos`.
 */
module UrlParser {
  import opened Results
  import opened CppString

  /** Links shorter than this are refused before anything else is looked at. */
  const MinUrlLength: nat := 52
  const IdLength: nat := 8
  /** The padded key length that decodes to a 32-byte node key. */
  const EncodedKeyLength: nat := 44

  datatype UrlParts = UrlParts(id: string, key: string)

  // ---------------------------------------------------------------------------
  // Declarative vocabulary

  /** The link contains `#!`, which marks the legacy layout. */
  predicate HasLegacyMarker(url: string) {
    exists i :: 0 <= i < |url| - 1 && url[i] == '#' && url[i + 1] == '!'
  }

  /** The character that ends the id: `!` in the legacy layout, `#` otherwise. */
  function Delimiter(url: string): char {
    if HasLegacyMarker(url) then '!' else '#'
  }

  /** Characters skipped after the last `/`: the `#!` of the legacy layout. */
  function Skip(url: string): nat {
    if HasLegacyMarker(url) then 2 else 0
  }

  /** `p` is the last `/` of `url`, or -1 when it has none. */
  predicate IsLastSlash(url: string, p: int) {
    (p == -1 && '/' !in url) || IsLastOf(url, '/', p)
  }

  /** The URL-safe base 64 alphabet of section 5 of RFC 4648. */
  predicate IsUrlSafeChar(c: char) {
    'A' <= c <= 'Z' || 'a' <= c <= 'z' || '0' <= c <= '9' || c == '-' || c == '_'
  }

  predicate IsUrlSafe(s: string) {
    forall i :: 0 <= i < |s| ==> IsUrlSafeChar(s[i])
  }

  /** The standard-alphabet counterpart of a URL-safe character. */
  function StandardChar(c: char): char {
    if c == '_' then '/' else if c == '-' then '+' else c
  }

  // ---------------------------------------------------------------------------
  // The steps of decode_url

  /** `url.find("#!") < len`. */
  function IsOldLink(url: CppStr): (legacy: bool)
    ensures legacy <==> HasLegacyMarker(url)
  {
    var r := Find(url, "#!");
    if r < |url| then
      assert OccursAt(url, "#!", r);
      assert url[r..r + 2] == "#!";
      assert url[r] == url[r..r + 2][0] == '#';
      assert url[r + 1] == url[r..r + 2][1] == '!';
      true
    else
      assert !HasLegacyMarker(url) by {
        if HasLegacyMarker(url) {
          var i :| 0 <= i < |url| - 1 && url[i] == '#' && url[i + 1] == '!';
          assert OccursAt(url, "#!", i);
        }
      }
      false
  }

  /** The two `std::replace` calls: `_` becomes `/`, then `-` becomes `+`. */
  function NormalizeKey(raw: string): (k: string)
    ensures |k| == |raw|
    ensures forall i :: 0 <= i < |raw| ==> k[i] == StandardChar(raw[i])
    ensures forall i :: 0 <= i < |k| ==> k[i] != '_' && k[i] != '-'
  {
    Replace(Replace(raw, '_', '/'), '-', '+')
  }

  /** The URL-safe counterpart of a standard-alphabet character (section 5 of RFC 4648). */
  function UrlSafeChar(c: char): char {
    if c == '/' then '_' else if c == '+' then '-' else c
  }

  /** The URL-safe form of a standard base 64 text, as a link carries it. */
  function ToUrlSafe(s: string): (t: string)
    ensures |t| == |s|
    ensures forall i :: 0 <= i < |s| ==> t[i] == UrlSafeChar(s[i])
  {
    seq(|s|, i requires 0 <= i < |s| => UrlSafeChar(s[i]))
  }

  /** Normalising undoes the URL-safe form of any text free of `_` and `-`. */
  lemma {:induction false} NormalizeToUrlSafe(s: string)
    requires forall i :: 0 <= i < |s| ==> s[i] != '_' && s[i] != '-'
    ensures NormalizeKey(ToUrlSafe(s)) == s
  {
    var k := NormalizeKey(ToUrlSafe(s));
    forall i | 0 <= i < |s|
      ensures k[i] == s[i]
    {
      assert k[i] == StandardChar(UrlSafeChar(s[i]));
    }
  }

  /** `4 - key_len % 4`: one to four `=`, never none. */
  function PadCount(n: nat): (p: nat)
    ensures 1 <= p <= 4
    ensures (n + p) % 4 == 0
  {
    4 - n % 4
  }

  /** The key slice normalised to the standard alphabet and padded. */
  function PaddedKey(raw: string): (k: string)
    ensures |k| == |raw| + PadCount(|raw|)
    ensures k[..|raw|] == NormalizeKey(raw)
    ensures forall i :: |raw| <= i < |k| ==> k[i] == '='
    ensures forall i :: 0 <= i < |k| ==> k[i] != '_' && k[i] != '-'
  {
    NormalizeKey(raw) + Repeat('=', PadCount(|raw|))
  }

  /** Only raw key slices of 40 to 43 characters pad to exactly 44. */
  lemma PaddedKeyLength(raw: string)
    ensures |PaddedKey(raw)| == EncodedKeyLength <==> 40 <= |raw| <= 43
  {
    var n := |raw|;
    if n < 40 {
      assert n + PadCount(n) <= 43;
    } else if n > 43 {
      assert n + PadCount(n) >= 45;
    } else {
      assert n % 4 == n - 40;
    }
  }

  /** `init_pos`: one past the last `/`, two more in the legacy layout, modulo 2^64. */
  function IdStart(url: CppStr, oldLink: bool): (r: SizeT)
    ensures '/' !in url ==> r == (if oldLink then 2 else 0)
    ensures '/' in url ==> IsLastOf(url, '/', r - 1 - (if oldLink then 2 else 0))
  {
    Wrap(FindLastOf(url, '/') + (if oldLink then 2 else 0) + 1)
  }

  /** `end_pos`: the last `!` in the legacy layout, the last `#` otherwise, or `npos`. */
  function IdEnd(url: CppStr, oldLink: bool): (r: SizeT)
    ensures r == Npos <==> (if oldLink then '!' else '#') !in url
    ensures r != Npos ==> IsLastOf(url, if oldLink then '!' else '#', r)
  {
    FindLastOf(url, if oldLink then '!' else '#')
  }

  /** The key half of `decode_url`: cut after `end_pos`, normalise, pad, check the length. */
  function CutKey(url: CppStr, endPos: SizeT, id: string): (r: Result<UrlParts>)
    ensures r.Ok? ==> r.value.id == id && |r.value.key| == EncodedKeyLength
    ensures r.Ok? ==> forall i :: 0 <= i < |r.value.key| ==> r.value.key[i] != '_' && r.value.key[i] != '-'
  {
    var keyPos := Wrap(endPos + 1);
    var raw :- Substr(url, keyPos, Wrap(|url| - keyPos));
    var key := PaddedKey(raw);
    if |key| != EncodedKeyLength then Err(InvalidUrlKey)
    else Ok(UrlParts(id, key))
  }

  /** `MegaDL::decode_url`. */
  function DecodeUrl(url: CppStr): (r: Result<UrlParts>)
    ensures |url| < MinUrlLength ==> r == Err(InvalidUrl)
    ensures r.Ok? ==> |r.value.id| == IdLength && |r.value.key| == EncodedKeyLength
    ensures r.Ok? ==> forall i :: 0 <= i < |r.value.key| ==> r.value.key[i] != '_' && r.value.key[i] != '-'
  {
    if |url| < MinUrlLength then Err(InvalidUrl)
    else
      var oldLink := IsOldLink(url);
      var initPos := IdStart(url, oldLink);
      var endPos := IdEnd(url, oldLink);
      match Substr(url, initPos, Wrap(endPos - initPos))
      case Err(e) => Err(e)
      case Ok(id) =>
        if |id| != IdLength then Err(InvalidUrlId)
        else CutKey(url, endPos, id)
  }

  // ---------------------------------------------------------------------------
  // What decode_url computes, case by case

  /** The id starts just after the last `/`, two characters further on in the legacy layout. */
  lemma IdStartPosition(url: CppStr, slash: int)
    requires IsLastSlash(url, slash)
    ensures IdStart(url, IsOldLink(url)) == slash + 1 + Skip(url)
  {
    if slash == -1 {
      assert FindLastOf(url, '/') == Npos;
    } else {
      FindLastOfAt(url, '/', slash);
    }
  }

  /** The id ends at the last delimiter of the link's layout. */
  lemma IdEndPosition(url: CppStr, delim: int)
    requires IsLastOf(url, Delimiter(url), delim)
    ensures IdEnd(url, IsOldLink(url)) == delim
  {
    FindLastOfAt(url, Delimiter(url), delim);
  }

  /** `decode_url` once the two id positions are known. */
  lemma DecodeUrlAt(url: CppStr, start: SizeT, end: SizeT)
    requires |url| >= MinUrlLength
    requires IdStart(url, IsOldLink(url)) == start && IdEnd(url, IsOldLink(url)) == end
    ensures DecodeUrl(url) ==
              match Substr(url, start, Wrap(end - start))
              case Err(e) => Err(e)
              case Ok(id) => if |id| != IdLength then Err(InvalidUrlId) else CutKey(url, end, id)
  {
  }

  /** A key cut after a real delimiter position: 40 to 43 characters pass. */
  lemma CutKeyAfter(url: CppStr, endPos: SizeT, id: string)
    requires endPos < |url|
    ensures CutKey(url, endPos, id) ==
              if 40 <= |url| - endPos - 1 <= 43 then Ok(UrlParts(id, PaddedKey(url[endPos + 1..])))
              else Err(InvalidUrlKey)
  {
    var keyPos := endPos + 1;
    assert Wrap(endPos + 1) == keyPos;
    assert Wrap(|url| - keyPos) == |url| - keyPos;
    SubstrTail(url, keyPos, |url| - keyPos);
    PaddedKeyLength(url[keyPos..]);
  }

  /** With `end_pos == npos` the key position wraps to 0 and the whole link is taken as the key. */
  lemma CutKeyWrapped(url: CppStr, id: string)
    requires |url| >= MinUrlLength
    ensures CutKey(url, Npos, id) == Err(InvalidUrlKey)
  {
    SubstrWithin(url, 0, |url|);
    assert url[0..|url|] == url;
    PaddedKeyLength(url);
  }

  /** `decode_url` when the id span lies inside the link: `substr` takes exactly that span. */
  lemma DecodeUrlWithin(url: CppStr, start: SizeT, end: SizeT)
    requires |url| >= MinUrlLength
    requires IdStart(url, IsOldLink(url)) == start && IdEnd(url, IsOldLink(url)) == end
    requires start <= end < |url|
    ensures DecodeUrl(url) ==
              if end - start != IdLength then Err(InvalidUrlId)
              else if !(40 <= |url| - end - 1 <= 43) then Err(InvalidUrlKey)
              else Ok(UrlParts(url[start..end], PaddedKey(url[end + 1..])))
  {
    DecodeUrlAt(url, start, end);
    assert Wrap(end - start) == end - start;
    SubstrWithin(url, start, end - start);
    if end - start == IdLength {
      CutKeyAfter(url, end, url[start..end]);
    }
  }

  /** `decode_url` when the id span is reversed: the wrapped count makes `substr` take the tail. */
  lemma DecodeUrlTail(url: CppStr, start: SizeT, end: SizeT)
    requires |url| >= MinUrlLength
    requires IdStart(url, IsOldLink(url)) == start && IdEnd(url, IsOldLink(url)) == end
    requires end < start <= |url|
    ensures DecodeUrl(url) ==
              if |url| - start != IdLength then Err(InvalidUrlId)
              else if !(40 <= |url| - end - 1 <= 43) then Err(InvalidUrlKey)
              else Ok(UrlParts(url[start..], PaddedKey(url[end + 1..])))
  {
    DecodeUrlAt(url, start, end);
    assert Wrap(end - start) == end - start + SizeModulus;
    SubstrTail(url, start, end - start + SizeModulus);
    if |url| - start == IdLength {
      CutKeyAfter(url, end, url[start..]);
    }
  }

  /**
   * A link whose last delimiter follows the id start `start` (one past the
   * last `/`, two more in the legacy layout): the id is the text in between
   * and must be 8 characters long; the key is everything after the delimiter
   * and must have 40 to 43 characters.
   */
  lemma DecodeUrlSlices(url: CppStr, slash: int, delim: int, start: int)
    requires |url| >= MinUrlLength
    requires IsLastSlash(url, slash)
    requires IsLastOf(url, Delimiter(url), delim)
    requires start == slash + 1 + Skip(url)
    requires start <= delim
    ensures DecodeUrl(url) ==
              if delim - start != IdLength then Err(InvalidUrlId)
              else if !(40 <= |url| - delim - 1 <= 43) then Err(InvalidUrlKey)
              else Ok(UrlParts(url[start..delim], PaddedKey(url[delim + 1..])))
  {
    IdStartPosition(url, slash);
    IdEndPosition(url, delim);
    DecodeUrlWithin(url, start, delim);
  }

  /**
   * A link whose last delimiter comes before the id start `start`: `end_pos - init_pos`
   * wraps to a huge count, so `substr` takes the whole tail as the id, and the
   * key, still cut after the delimiter, overlaps it.
   */
  lemma ReversedSliceTakesTail(url: CppStr, slash: int, delim: int, start: int)
    requires |url| >= MinUrlLength
    requires IsLastSlash(url, slash)
    requires IsLastOf(url, Delimiter(url), delim)
    requires start == slash + 1 + Skip(url)
    requires delim < start <= |url|
    ensures DecodeUrl(url) ==
              if |url| - start != IdLength then Err(InvalidUrlId)
              else if !(40 <= |url| - delim - 1 <= 43) then Err(InvalidUrlKey)
              else Ok(UrlParts(url[start..], PaddedKey(url[delim + 1..])))
  {
    IdStartPosition(url, slash);
    IdEndPosition(url, delim);
    DecodeUrlTail(url, start, delim);
  }

  /**
   * A legacy link whose last `/` is one of its last two characters: the id
   * start lies past the end and `substr` throws `out_of_range`.
   */
  lemma StartPastEndIsOutOfRange(url: CppStr, slash: int)
    requires |url| >= MinUrlLength
    requires IsLastSlash(url, slash)
    requires slash + 1 + Skip(url) > |url|
    ensures DecodeUrl(url) == Err(OutOfRange)
  {
    IdStartPosition(url, slash);
  }

  /**
   * A link without the delimiter of its layout never decodes: the id can only
   * be its last 8 characters, and then `end_pos + 1` wraps to 0, so the key
   * is the whole link, far longer than 43 characters.
   */
  lemma MissingDelimiterRejected(url: CppStr)
    requires Delimiter(url) !in url
    ensures DecodeUrl(url).Err?
  {
    if |url| >= MinUrlLength {
      assert IdEnd(url, IsOldLink(url)) == Npos;
      var slash := if '/' in url then FindLastOf(url, '/') else -1;
      IdStartPosition(url, slash);
      var start := slash + 1 + Skip(url);
      if start <= |url| {
        SubstrTail(url, start, Npos - start);
        CutKeyWrapped(url, url[start..]);
      }
    }
  }

  // ---------------------------------------------------------------------------
  // The two layouts

  /** What may come before the id: nothing, or a text ending in `/` that holds no `#`. */
  predicate IsLinkPrefix(prefix: string) {
    && (|prefix| == 0 || prefix[|prefix| - 1] == '/')
    && '#' !in prefix
    && |prefix| + 54 <= MaxSize
  }

  /** A well-formed link in the current layout: `<prefix>ID#KEY`. */
  function NewLink(prefix: string, id: string, raw: string): string {
    prefix + id + "#" + raw
  }

  /** A well-formed link in the legacy layout: `<prefix>#!ID!KEY`. */
  function LegacyLink(prefix: string, id: string, raw: string): string {
    prefix + "#!" + id + "!" + raw
  }

  /** Where each character of `NewLink(prefix, id, raw)` comes from. */
  lemma NewLinkChars(prefix: string, id: string, raw: string)
    requires |id| == IdLength
    ensures var url, n := NewLink(prefix, id, raw), |prefix|;
            && |url| == n + 9 + |raw|
            && (forall i :: 0 <= i < n ==> url[i] == prefix[i])
            && (forall i :: n <= i < n + 8 ==> url[i] == id[i - n])
            && url[n + 8] == '#'
            && (forall i :: n + 9 <= i < |url| ==> url[i] == raw[i - n - 9])
            && url[n..n + 8] == id && url[n + 9..] == raw
  {
    var url, n := NewLink(prefix, id, raw), |prefix|;
    assert url == (prefix + id) + ("#" + raw);
    assert url[n..n + 8] == id;
    assert url[n + 9..] == raw;
  }

  /** Where each character of `LegacyLink(prefix, id, raw)` comes from. */
  lemma LegacyLinkChars(prefix: string, id: string, raw: string)
    requires |id| == IdLength
    ensures var url, n := LegacyLink(prefix, id, raw), |prefix|;
            && |url| == n + 11 + |raw|
            && (forall i :: 0 <= i < n ==> url[i] == prefix[i])
            && url[n] == '#' && url[n + 1] == '!'
            && (forall i :: n + 2 <= i < n + 10 ==> url[i] == id[i - n - 2])
            && url[n + 10] == '!'
            && (forall i :: n + 11 <= i < |url| ==> url[i] == raw[i - n - 11])
            && url[n + 2..n + 10] == id && url[n + 11..] == raw
  {
    var url, n := LegacyLink(prefix, id, raw), |prefix|;
    assert url == (prefix + "#!") + (id + "!" + raw);
    assert url[n + 2..n + 10] == id;
    assert url[n + 11..] == raw;
  }

  /** No character of a URL-safe text is `#`, `!` or `/`. */
  lemma UrlSafeExcludes(s: string, i: int)
    requires IsUrlSafe(s) && 0 <= i < |s|
    ensures s[i] != '#' && s[i] != '!' && s[i] != '/'
  {
    assert IsUrlSafeChar(s[i]);
  }

  /** The text before the id ends in its last `/`, or there is none. */
  lemma {:induction false} LastSlashBefore(url: string, prefix: string, n: int)
    requires IsLinkPrefix(prefix) && n == |prefix| <= |url|
    requires forall i :: 0 <= i < n ==> url[i] == prefix[i]
    requires forall i :: n <= i < |url| ==> url[i] != '/'
    ensures IsLastSlash(url, n - 1)
  {
    if n == 0 {
      assert forall i :: 0 <= i < |url| ==> url[i] != '/';
    } else {
      assert url[n - 1] == '/';
    }
  }

  lemma {:induction false} NewLinkShape(prefix: string, id: string, raw: string)
    requires IsLinkPrefix(prefix)
    requires |id| == IdLength && IsUrlSafe(id)
    requires IsUrlSafe(raw) && |raw| > 0
    ensures var url, n := NewLink(prefix, id, raw), |prefix|;
            && |url| == n + 9 + |raw| && url[n..n + 8] == id && url[n + 9..] == raw
            && !HasLegacyMarker(url)
            && IsLastOf(url, '#', n + 8)
            && IsLastSlash(url, n - 1)
  {
    var url, n := NewLink(prefix, id, raw), |prefix|;
    NewLinkChars(prefix, id, raw);
    forall i | 0 <= i < |url| && i != n + 8
      ensures url[i] != '#' && (i >= n ==> url[i] != '/')
    {
      if i < n {
        assert url[i] in prefix;
      } else if i < n + 8 {
        UrlSafeExcludes(id, i - n);
      } else {
        UrlSafeExcludes(raw, i - n - 9);
      }
    }
    UrlSafeExcludes(raw, 0);
    assert url[n + 9] != '!';
    LastSlashBefore(url, prefix, n);
  }

  lemma {:induction false} LegacyLinkShape(prefix: string, id: string, raw: string)
    requires IsLinkPrefix(prefix)
    requires |id| == IdLength && IsUrlSafe(id)
    requires IsUrlSafe(raw)
    ensures var url, n := LegacyLink(prefix, id, raw), |prefix|;
            && |url| == n + 11 + |raw| && url[n + 2..n + 10] == id && url[n + 11..] == raw
            && HasLegacyMarker(url)
            && IsLastOf(url, '!', n + 10)
            && IsLastSlash(url, n - 1)
  {
    var url, n := LegacyLink(prefix, id, raw), |prefix|;
    LegacyLinkChars(prefix, id, raw);
    forall i | n <= i < |url|
      ensures url[i] != '/' && (i > n + 10 ==> url[i] != '!')
    {
      if n + 2 <= i < n + 10 {
        UrlSafeExcludes(id, i - n - 2);
      } else if i > n + 10 {
        UrlSafeExcludes(raw, i - n - 11);
      }
    }
    assert url[n] == '#' && url[n + 1] == '!';
    LastSlashBefore(url, prefix, n);
  }

  /** A link with its id at `start` and its key after the delimiter that follows decodes to both. */
  lemma SlicesDecode(url: CppStr, start: int, id: string, raw: string)
    requires |url| >= MinUrlLength
    requires 0 <= start && start + 9 <= |url|
    requires IsLastSlash(url, start - Skip(url) - 1)
    requires IsLastOf(url, Delimiter(url), start + 8)
    requires url[start..start + 8] == id && url[start + 9..] == raw
    requires 40 <= |raw| <= 43
    ensures DecodeUrl(url) == Ok(UrlParts(id, PaddedKey(raw)))
  {
    DecodeUrlSlices(url, start - Skip(url) - 1, start + 8, start);
  }

  /** A link in the current layout yields its id and its padded, normalised key. */
  lemma NewLinkDecodes(prefix: string, id: string, raw: string)
    requires IsLinkPrefix(prefix)
    requires |id| == IdLength && IsUrlSafe(id)
    requires 40 <= |raw| <= 43 && IsUrlSafe(raw)
    requires |prefix| + 9 + |raw| >= MinUrlLength
    ensures |NewLink(prefix, id, raw)| <= MaxSize
    ensures DecodeUrl(NewLink(prefix, id, raw)) == Ok(UrlParts(id, PaddedKey(raw)))
  {
    NewLinkShape(prefix, id, raw);
    SlicesDecode(NewLink(prefix, id, raw), |prefix|, id, raw);
  }

  /** A link in the legacy layout yields its id and its padded, normalised key. */
  lemma LegacyLinkDecodes(prefix: string, id: string, raw: string)
    requires IsLinkPrefix(prefix)
    requires |id| == IdLength && IsUrlSafe(id)
    requires 40 <= |raw| <= 43 && IsUrlSafe(raw)
    requires |prefix| + 11 + |raw| >= MinUrlLength
    ensures |LegacyLink(prefix, id, raw)| <= MaxSize
    ensures DecodeUrl(LegacyLink(prefix, id, raw)) == Ok(UrlParts(id, PaddedKey(raw)))
  {
    LegacyLinkShape(prefix, id, raw);
    SlicesDecode(LegacyLink(prefix, id, raw), |prefix| + 2, id, raw);
  }

  /** The same id and key give the same result in either layout. */
  lemma LayoutsAgree(prefix: string, id: string, raw: string)
    requires IsLinkPrefix(prefix)
    requires |id| == IdLength && IsUrlSafe(id)
    requires 40 <= |raw| <= 43 && IsUrlSafe(raw)
    requires |prefix| + 9 + |raw| >= MinUrlLength
    ensures |NewLink(prefix, id, raw)| <= MaxSize && |LegacyLink(prefix, id, raw)| <= MaxSize
    ensures DecodeUrl(NewLink(prefix, id, raw)) == DecodeUrl(LegacyLink(prefix, id, raw))
  {
    NewLinkDecodes(prefix, id, raw);
    LegacyLinkDecodes(prefix, id, raw);
  }
}
